=== FILE: README.md ===
# anguis core in Dafny

A Dafny model of two utility modules of the `anguis` Snakemake workflow package, with
proofs about them.

- **`SnakemakeResourcesManager`** (`anguis/resources.py`) resolves the threads, memory
  and runtime of each workflow rule.
  - It looks each value up in a table of definitions.
  - A missing value falls back to a `default` entry, which the constructor injects.
  - Resolved values are kept in a cache, a nested `defaultdict(int)`.
  - Memory and runtime are scaled by the retry attempt.
  - A runtime string of the form `D-HH:MM:SS` is parsed into seconds.
    Text that does not split into exactly four integer fields, `HH:MM:SS` without days included, gives the 3600-second fallback.
- **Helpers of `anguis/python_utils.py`**:
  - the `LoggerWriter` line buffer that replaces `sys.stdout` and `sys.stderr`;
  - the `json_object_hook` value coercion;
  - the `flatten` generator.

Files:

- `wrappers.dfy`: `Option` and `Result`.
- `strings.dfy` (module `Strings`) models the text handling the two modules rely on:
  - what Python's `int()` and `float()` accept;
  - decimal rendering;
  - `re.split(':|-', s)`;
  - first- and last-occurrence searches.
- `resources.dfy` (module `Resources`) models the manager.
  - Its attributes are the fields of an immutable `Manager`, and each call returns the next `Manager`.
  - An exception that escapes a call is a `Failure` carrying `KeyError`, `TypeError`, `ValueError` or `IndexError`.
  - The `OverflowError` of Python's float arithmetic is not modelled: where Python would raise it, the model returns the exact value.
- `python_utils.dfy` (module `PythonUtils`) models the writer, the JSON hook and `flatten`.
  - The logger is the sequence of `(level, text)` records a call emits.
  - A nested iterable is the `Element` tree.

Modelling choices:

- **Cache reads.** Reading `resources[rule][key]` from the `defaultdict` cache gives 0 for a missing entry, and it inserts that 0 (`Touch`). So the `except KeyError` branches of `get_threads`, `get_mem` and `get_runtime` cannot run, and they are not modelled.
- **Presets.** The constructor sets `presets` to `None` whatever it is passed. A non-integer string in a rule's definition therefore makes `get_resource_value` raise `TypeError`, which its `except ValueError` does not catch. The model keeps `presets` as an `Option` so that the preset path can still be stated.
- **Multipliers.** They are exact positive rationals: `1.5` is `Ratio(3, 2)`. `int(x)` truncates toward zero (`TruncDiv`).
- **Runtime scaling.** The factor is `1 + (attempt - 1) / 2`, which is `(attempt + 1) / 2` exactly.
  - The docstring of `get_runtime` speaks of 1.5x per attempt. The code scales linearly and never reads `runtime_attempt_multiplier`. The model follows the code.

## Model

| member | source | states |
|---|---|---|
| `Resources.New` | anguis/resources.py:18-39 | The table holds the caller's rules unchanged plus the default rule. An absent default rule gets exactly threads 1, mem_mb 2000 and runtime_s 3600 under the configured key names. `presets` is `None` whatever was passed. The cache starts empty. |
| `Resources.NewWithoutResources` | anguis/resources.py:14-38 | With no definitions and the default arguments, the table is exactly `{default: {threads: 1, mem_mb: 2000, runtime_s: 3600}}`. |
| `Resources.BuiltinDefault` | anguis/resources.py:36-38 | The injected default entry has exactly the three configured keys: runtime 3600, memory 2000 unless its key coincides with runtime's, and threads 1 unless its key coincides with either. |
| `Resources.Cached` | anguis/resources.py:39 | A `defaultdict(int)` reading: the stored value when both levels are present, 0 otherwise. |
| `Resources.Touch` | anguis/resources.py:39 | Reading from the `defaultdict` cache inserts the missing levels but changes no value any later read sees. |
| `Resources.Store` | anguis/resources.py:60 | The cache write sets one entry and leaves every other reading as it was. |
| `Resources.GetResourceValue` | anguis/resources.py:41-60 | Only the cache changes, the definitions never do. On success the entry is present and no other entry's reading changes. The only exceptions that escape are `TypeError` and `KeyError`. |
| `Resources.AsInt` | anguis/resources.py:50 | `int(value)`: an integer is itself, a digit string is its value, and an accepted string ends in a digit. |
| `Resources.DefaultValue` | anguis/resources.py:58 | The default entry's value is found exactly when the default rule and the resource are both defined; otherwise `KeyError` names the missing key. |
| `Resources.Resolve` | anguis/resources.py:46-59 | The value stored, or the escaping exception. `TypeError` escapes exactly when the rule's own value is not an integer text and there are no presets. Every `KeyError` comes from the default entry's lookup. No other exception escapes. |
| `Resources.ResolveLiteral` | anguis/resources.py:46-50 | A defined value that `int()` accepts is stored as that integer. |
| `Resources.ResolveMissing` | anguis/resources.py:57-60 | A missing rule or resource stores the default entry's value unconverted. If the default entry lacks the resource, `KeyError` escapes. |
| `Resources.ResolveWithoutPresets` | anguis/resources.py:51-56 | A non-integer string with no presets raises `TypeError`, and it escapes. |
| `Resources.ResolveWithPresets` | anguis/resources.py:51-58 | With presets, a known preset name stores the preset's value. An unknown one falls back to the default entry, or raises `KeyError` when that entry lacks the resource. |
| `Resources.ConstructedRejectsPresetNames` | anguis/resources.py:30-56 | On any constructed manager, a non-integer string in a rule's definition makes the call fail with `TypeError`. |
| `Resources.GetResourceValueIdempotent` | anguis/resources.py:41-60 | A second identical call succeeds and leaves the manager exactly as the first left it. |
| `Resources.GetThreads` | anguis/resources.py:86-94 | Returns the cache's reading for the rule's threads key. It changes no reading of the cache, and leaves the entry present. That reading is the resolved value (`ThreadsAfterResolve`) or 0 (`ThreadsNeverResolved`). |
| `Resources.ThreadsNeverResolved` | anguis/resources.py:86-94 | A rule whose threads entry was never stored reads back 0, whatever other rules were resolved. |
| `Resources.ThreadsAfterResolve` | anguis/resources.py:86-94 | After a successful resolution, `get_threads` returns exactly the resolved value. |
| `Resources.ThreadsBeforeResolve` | anguis/resources.py:39 | On a freshly constructed manager, every rule reads back 0 threads, the default rule included. |
| `Resources.TruncDiv` | anguis/resources.py:106 | `int()` of an exact quotient: truncation toward zero, bounded from both sides for either sign. |
| `Resources.Scale` | anguis/resources.py:106-108 | `int(n * multiplier ** (attempt - 1))` on an exact rational: truncation toward zero never changes the sign of the value. |
| `Resources.ScaleUnitMultiplier` | anguis/resources.py:106-108 | A multiplier of one leaves the value unchanged at every attempt, negative exponents included. |
| `Resources.ScaleNeverBelow` | anguis/resources.py:106-108 | A multiplier of at least one never scales a non-negative value below itself. |
| `Resources.GetMem` | anguis/resources.py:96-112 | Only the cache's insertion changes, and no reading of it. The model's failures are `IndexError` or `ValueError`; Python's `OverflowError` is not modelled. An empty string always raises `IndexError`. A non-digit string ending in G, M or K raises `ValueError` exactly when the text before the suffix is not a float. |
| `Resources.GetMemFirstAttempt` | anguis/resources.py:105-112 | At attempt 1 an integer or digit string comes back as that integer. A non-empty string without a G/M/K suffix comes back unchanged. |
| `Resources.GetMemNeverBelow` | anguis/resources.py:99-108 | With a multiplier of at least one, no attempt asks for less memory than the stored integer or digit string. |
| `Resources.GetMemSecondAttemptExample` | anguis/resources.py:106 | With the default 1.5 multiplier, 2000 MB becomes 3000 MB at attempt 2. |
| `Resources.RuntimeFields` | anguis/resources.py:127 | Four fields come back only from text with exactly three `:`/`-` separators, and no field is negative, since a `-` splits rather than signs. |
| `Resources.ParseRuntime` | anguis/resources.py:123-131 | A runtime string gives a non-negative number of seconds. Text without exactly three separators takes the 3600-second fallback, and so does text with a field `int()` rejects. |
| `Resources.BaseRuntime` | anguis/resources.py:123-131 | An integer runtime is used as it is. A string gives a non-negative number of seconds, and the 3600-second fallback when it lacks exactly three separators. |
| `Resources.ScaleRuntime` | anguis/resources.py:132 | For non-negative times the result is the floor of `time * (attempt + 1) / 2`, never below `time` for attempt >= 1, and exactly `time` at attempt 1. |
| `Resources.GetRuntime` | anguis/resources.py:114-133 | Changes no reading of the cache. At attempt 1 the result is the stored integer, or the parsed string. |
| `Resources.RuntimeBeforeResolve` | anguis/resources.py:119-124 | On a freshly constructed manager, the runtime reads back as 0 at any attempt. |
| `Resources.GetRuntimeScaling` | anguis/resources.py:132-133 | The result equals `time * (attempt + 1) / 2`, rounded down, and is never below the attempt-1 runtime. |
| `Resources.GetRuntimeIgnoresMultiplier` | anguis/resources.py:114-133 | `runtime_attempt_multiplier` has no effect on the result. |
| `Resources.FormatRuntimeFields` | anguis/resources.py:127 | Splitting `D-HH:MM:SS` on `:` or `-` gives its four numerals. |
| `Resources.ParseRuntimeRoundTrip` | anguis/resources.py:127-128 | Parsing `D-HH:MM:SS` gives back `((d * 24 + h) * 60 + m) * 60 + s` for every duration whose four fields each have at most 4300 digits. |
| `Resources.ParseRuntimeExample` | anguis/resources.py:127-128 | `"1-02:30:00"` is 95400 seconds. |
| `Resources.ParseRuntimeSingleField` | anguis/resources.py:126-131 | Text without `:` or `-` takes the 3600-second fallback. That includes a plain number of seconds. |
| `Resources.ParseRuntimeBogus` | anguis/resources.py:129-131 | `"bogus"` takes the 3600-second fallback. |
| `Resources.ParseRuntimeWithoutDays` | anguis/resources.py:126-131 | `"01:30:00"`, an `HH:MM:SS` duration without a day field, takes the 3600-second fallback instead of giving 5400. |
| `Resources.ParseRuntimeRejectedField` | anguis/resources.py:127-131 | Four separator-free fields joined by three `:`/`-` separators take the 3600-second fallback when `int()` rejects any one of them, such as the `0x` of `"1-02:30:0x"`. |
| `Resources.ParseRuntimeFields` | anguis/resources.py:127-128 | Any four separator-free texts `int()` accepts, joined by any three `:`/`-` separators, padded or not, give `((d * 24 + h) * 60 + m) * 60 + s` on their values. |
| `Strings.ParseInt` | anguis/resources.py:50 | `int()` accepts only an optional sign followed by digits, and a negative result came from a leading `-`. |
| `Strings.ParseIntRoundTrip` | anguis/resources.py:50 | `int(str(n)) == n` for every integer, up to CPython's 4300-digit limit. |
| `Strings.ParseIntLeadingZero` | anguis/resources.py:127 | A zero-padded field such as `"02"` reads as the unpadded number. |
| `Strings.SplitFields` | anguis/resources.py:127 | Splitting on `:` or `-` gives at least one field, and no field holds a separator. |
| `Strings.SplitFieldsCount` | anguis/resources.py:127 | There is one field more than there are separators. |
| `Strings.SplitAtSep` | anguis/resources.py:127 | A separator closes the field before it and the rest splits on its own. |
| `Strings.DigitStringParses` | anguis/resources.py:107-108 | A string that passes the `isdigit()` test (`Strings.IsDigitString`, ASCII digits only) is read by `int()` as its digits' value, up to CPython's 4300-digit limit, and `float()` accepts it too. |
| `Strings.IsFloatText` | anguis/python_utils.py:113 | The `float()` grammar: optional sign, then `inf`, `infinity`, `nan` or a mantissa with an optional exponent. Every accepted text has something after its sign. |
| `Strings.DecimalIsFloatText` | anguis/python_utils.py:113 | Digits, a point and digits, with a digit on at least one side, are always a float text. |
| `Strings.FloatTextAcceptsDecimals` | anguis/python_utils.py:113 | `"1.5"` and `".5"` are float texts. |
| `Strings.FloatTextAcceptsOthers` | anguis/python_utils.py:113 | `"-2e3"` and `"INF"` are float texts. |
| `Strings.FloatTextRejectsEmpty` | anguis/python_utils.py:113 | `""` and `"e5"` are not float texts. |
| `Strings.FloatTextRejectsPoints` | anguis/python_utils.py:113 | `"."` and `"1.2.3"` are not float texts. |
| `Strings.IntTextIsFloatText` | anguis/python_utils.py:109-113 | Every text `int()` accepts is also accepted by `float()`. That is why the hook must try `int()` first. |
| `Strings.AfterLastIsFinalSegment` | anguis/python_utils.py:23-26 | What the buffer keeps is the final segment of the text, preceded by a newline whenever it is shorter. |
| `PythonUtils.NewWriter` | anguis/python_utils.py:13-16 | A new writer has the given level and module and nothing pending, so its buffer is newline-free from the start, as `Write` keeps it. |
| `PythonUtils.Prefix` | anguis/python_utils.py:25 | The record head is `(PYTHON: `, the module name, then `.py)` and two spaces, 15 characters longer than the name. |
| `PythonUtils.Emitted` | anguis/python_utils.py:23-26 | The records the as-written loop emits from a buffer: none exactly when the buffer holds no newline. |
| `PythonUtils.Write` | anguis/python_utils.py:18-26 | The buffer ends newline-free and holds what follows the last newline of old buffer + message. One record is emitted per newline, each at the writer's level with the prefix. A message without a newline emits nothing and is only appended. The records are exactly the as-written `Emitted` sequence. |
| `PythonUtils.EmittedCount` | anguis/python_utils.py:23-26 | The as-written loop emits one record per newline of the buffer. |
| `PythonUtils.EmittedTagged` | anguis/python_utils.py:25 | Every as-written record carries the level and the `(PYTHON: <module>.py)  ` prefix. |
| `PythonUtils.EmittedKeepsLaterLines` | anguis/python_utils.py:25 | As written, writing `"a\nb\n"` logs `"a\nb"` and then `"b"`. |
| `PythonUtils.Flush` | anguis/python_utils.py:28-32 | Flushing emits nothing and leaves the writer unchanged. |
| `PythonUtils.WriteLines` | anguis/python_utils.py:22-26 | The corrected write keeps the same level, module and pending buffer as the original. |
| `PythonUtils.LineBodiesShape` | anguis/python_utils.py:23-26 | With the intended slice, there is one logged line per newline and no line holds a newline. |
| `PythonUtils.LineBodiesRestoreText` | anguis/python_utils.py:23-26 | The intended lines, each followed by its newline, and then the buffer, rebuild the text exactly. |
| `PythonUtils.WriteLinesRestoresText` | anguis/python_utils.py:22-26 | Corrected write: one record per newline, each the prefix plus a newline-free line. Joining the lines and the new buffer gives back old buffer + message. |
| `PythonUtils.WriteAgreesOnSingleLine` | anguis/python_utils.py:22-26 | For one newline-terminated line, the pattern `print` produces, the as-written and corrected writes log the same record. |
| `PythonUtils.ObjectHook` | anguis/python_utils.py:102-118 | The result has exactly the input's keys. Values that are not strings pass through. Integer texts become integers, float texts become floats, and other strings stay as they are. |
| `PythonUtils.Coerce` | anguis/python_utils.py:108-117 | A value that is not a string is unchanged. A string becomes an integer only by `int()`, a float only when `int()` rejects it and `float()` accepts it, and stays a string only when both reject it. |
| `PythonUtils.CoerceIdempotent` | anguis/python_utils.py:106-118 | Coercing a coerced value changes nothing. |
| `PythonUtils.Flatten` | anguis/python_utils.py:148-157 | No yielded element is an iterable other than a string or bytes object. |
| `PythonUtils.FlattenAppend` | anguis/python_utils.py:153-157 | Flattening a concatenation is the concatenation of the flattenings, which fixes the left-to-right order. |
| `PythonUtils.FlattenFlat` | anguis/python_utils.py:154-157 | A list without nested iterables flattens to itself. |
| `PythonUtils.FlattenIdempotent` | anguis/python_utils.py:148-157 | Flattening twice is flattening once. |
| `PythonUtils.FlattenExample` | anguis/python_utils.py:150-151 | `[[1, 2], [3], 4]` flattens to `[1, 2, 3, 4]`, and a string inside a list stays one element. |
| `PythonUtils.FlattenByFrames` | anguis/python_utils.py:148-157 | The suspended-generator execution, an explicit stack of frames, yields exactly `Flatten(xs)`. |

## Left out

- `allocate_resources` (anguis/resources.py:62-84) is not modelled. It calls an undefined bare `get_resource_value` and reads the undefined names `resources_info` and `presets`, so every call raises `NameError`.
- Configuration values are integers or strings.
  - A YAML float, `None` or a list is not modelled.
  - Nor is Python's `bool` being an `int`.
- Python `int()` is restricted to an optional ASCII sign and ASCII digits. It does not model surrounding whitespace, `_` digit separators or non-ASCII digits.
- Strings.ParseInt: accepts digit strings of any length. CPython 3.11, and the 3.10.7, 3.9.14 and 3.8.14 security releases, raise `ValueError` from `int()` and `str()` on more than 4300 decimal digits. Past that limit the source differs from the model at four places:
  - resources.py:50: the source takes the preset path and raises `TypeError`, where the model stores an integer;
  - resources.py:108: `ValueError` escapes, where the model returns megabytes;
  - resources.py:127: the source takes the 3600-second fallback, where the model applies the formula;
  - python_utils.py:110-113: the source gives the float `inf`, where the model gives an integer.
- Strings.ParseIntRoundTrip: `int(str(n)) == n` holds in CPython only for `n` of at most 4300 digits; beyond that `str(n)` raises.
- Strings.DigitStringParses: holds in CPython only for at most 4300 digits; a longer `isdigit()` memory string makes `int()` raise `ValueError` at resources.py:108.
- Resources.ParseRuntimeRoundTrip: holds in CPython only when the four fields each have at most 4300 digits; a longer field, the day count or a `Pad2` field alike, makes `int()` raise, and the text takes the 3600-second fallback.
- `str.isdigit()` is modelled as ASCII digits only (`Strings.IsDigitString`). Python also accepts non-ASCII digits such as `"²"`. For such a memory string `get_mem` passes the `isdigit()` test and then `int()` raises `ValueError`, whereas the model returns the string unchanged as `MemText`.
- `float()` is modelled by the grammar predicate `IsFloatText`: sign, digits with at most one point, optional exponent, `inf`/`infinity`/`nan`. It does not cover whitespace, underscores or non-ASCII digits.
- Floating-point rounding is not modelled: multipliers are exact rationals, so `int(n * m)` is the exact truncated product.
- Resources.GetMemFirstAttempt: CPython computes `int(n * 1.0)`, which is guaranteed to equal `n` only for `|n| <= 2^53`. Above that, up to about 1.8e308, the product is rounded to a double, so `2**60 + 100` comes back as `2**60`, an error of up to about `n * 2^-53`.
- Resources.GetRuntime: its attempt-1 result, `int(time * 1.0)`, is likewise guaranteed exact in CPython only for `|time| <= 2^53`.
- Resources.GetMem: the `OverflowError` CPython raises is not modelled, and the model returns the exact scaled value instead. It arises at resources.py:106 and 108 when `multiplier ** (attempt - 1)` overflows a double (from attempt 1752 with the default 1.5). It also arises when the scaled product exceeds about 1.8e308, since `int()` of the infinite result raises.
- Resources.GetRuntime: the `OverflowError` CPython raises at resources.py:132 is not modelled. `time * <float>` raises "int too large to convert to float" when `|time| >= 2^1024`, which a runtime string with a day field of about 305 digits reaches. The model returns the exact value instead.
- For a multiplier that is not exactly representable, such as `1.1`, or at later attempts, CPython's rounded product can differ from the exact one.
- Resources.GetMem: the suffixed branch returns `f'{tmp}{suffix}'`, where `tmp` is a float. It is kept abstract as the number text, the suffix and the exponent, because Python's float formatting is not modelled.
- The `print` diagnostics of `get_resource_value` and `get_runtime` are left out; they have no effect on the result.
- The logger object passed to `LoggerWriter.__init__` is replaced by the list of records a call emits.
- `setup_logging`, `create_dirs`, `remove_file_if_exists`, `touch`, `load_json_to_dict` and `save_dict_to_json` are not modelled: they are logging configuration and file-system I/O.
- `is_iterable` is not modelled: it reads the nonexistent `collections.iterable` and raises `AttributeError`.
- `json_object_hook` is modelled on a flat map of decoded values. Dictionary ordering and the JSON decoder calling the hook bottom-up are not modelled.
- `flatten` is modelled on a finite tree of elements.
  - The model does not cover infinite or one-shot iterators.
  - It does not cover a string element yielding itself when iterated.
  - It does not cover a generator raising part-way.
- The `defined_resources` dictionary the constructor receives is the caller's own object, and Python mutates it in place when it adds the default entry. The model returns a new table instead, so that aliasing is not modelled.

## Findings

| source | as written | input that shows it | evidently intended | confidence | as-written member | corrected member |
|---|---|---|---|---|---|---|
| anguis/python_utils.py:25 | each record logs `self._msg[:-1]`, the whole pending buffer minus its last character | `write("a\nb\n")` logs `"a\nb"` and then `"b"`, so the first line is logged together with the second | log `self._msg[:pos]`, the text before the newline just found | not executed | `PythonUtils.EmittedKeepsLaterLines` | `PythonUtils.WriteLinesRestoresText` |

=== FILE: python_utils.dfy ===
/** The stream and collection helpers of `anguis/python_utils.py`: the `LoggerWriter`
    line buffer that stands in for `sys.stdout`/`sys.stderr`, the `json_object_hook`
    value coercion, and the `flatten` generator. The logger is the sequence of records
    a call emits; the writer's `_msg` attribute is the `buffer` of an immutable `Writer`. */
module PythonUtils {
  import opened Wrappers
  import opened Strings

  // ---------------------------------------------------------------------------
  // LoggerWriter

  /** One `logger.log(level, text)` call. */
  datatype Record = Record(level: int, text: string)

  /** A writer: the level fixed at construction, the name of the module the class is
      defined in (`__name__`), and the pending text `_msg`. */
  datatype Writer = Writer(level: int, moduleName: string, buffer: string)

  /** `LoggerWriter(level)`: nothing pending, so the newline-free buffer that `Write`
      leaves behind holds from the start. */
  function NewWriter(level: int, moduleName: string): (w: Writer)
    ensures w.level == level && w.moduleName == moduleName
    ensures '\n' !in w.buffer && |w.buffer| == 0
  {
    Writer(level, moduleName, "")
  }

  /** The `f'(PYTHON: {__name__}.py)  '` head of every record. */
  function Prefix(moduleName: string): (p: string)
    ensures |p| == |moduleName| + 15
    ensures p[..9] == "(PYTHON: " && p[9..9 + |moduleName|] == moduleName && p[9 + |moduleName|..] == ".py)  "
  {
    "(PYTHON: " + moduleName + ".py)  "
  }

  /** A record at the writer's level that begins with the prefix. */
  predicate Logged(r: Record, level: int, moduleName: string)
  {
    r.level == level && Prefix(moduleName) <= r.text
  }

  /** Every record carries the writer's level and begins with the prefix. */
  predicate Tagged(records: seq<Record>, level: int, moduleName: string)
  {
    forall i :: 0 <= i < |records| ==> Logged(records[i], level, moduleName)
  }

  /** The records the loop of `write` emits from the buffer `buf`, as written: each
      record carries the whole current buffer minus its last character, and the buffer
      then drops everything up to and including its first newline. */
  function Emitted(level: int, moduleName: string, buf: string): (r: seq<Record>)
    ensures r == [] <==> '\n' !in buf
    decreases |buf|
  {
    if '\n' in buf then
      [Record(level, Prefix(moduleName) + buf[..|buf| - 1])] + Emitted(level, moduleName, AfterFirst(buf, '\n'))
    else []
  }

  /** One record per newline of the buffer. */
  lemma {:induction false} EmittedCount(level: int, moduleName: string, buf: string)
    ensures |Emitted(level, moduleName, buf)| == Count(buf, '\n')
    decreases |buf|
  {
    if '\n' in buf {
      var tail := AfterFirst(buf, '\n');
      CountAtFirst(buf, '\n');
      EmittedCount(level, moduleName, tail);
      EmittedAtFirst(level, moduleName, buf);
    } else {
      assert Emitted(level, moduleName, buf) == [];
    }
  }

  /** Every record is at the writer's level and behind its prefix. */
  lemma {:induction false} EmittedTagged(level: int, moduleName: string, buf: string)
    ensures Tagged(Emitted(level, moduleName, buf), level, moduleName)
    decreases |buf|
  {
    if '\n' in buf {
      var tail := AfterFirst(buf, '\n');
      var rest := Emitted(level, moduleName, tail);
      EmittedTagged(level, moduleName, tail);
      var r := Emitted(level, moduleName, buf);
      assert r == [Record(level, Prefix(moduleName) + buf[..|buf| - 1])] + rest;
      forall i | 0 <= i < |r|
        ensures Logged(r[i], level, moduleName)
      {
        if i > 0 {
          assert r[i] == rest[i - 1];
        }
      }
    }
  }

  lemma EmittedAtFirst(level: int, moduleName: string, buf: string)
    requires '\n' in buf
    ensures Emitted(level, moduleName, buf)
         == [Record(level, Prefix(moduleName) + buf[..|buf| - 1])] + Emitted(level, moduleName, AfterFirst(buf, '\n'))
  {
  }

  /** One turn of the loop of `write`: the emitted record, and what stays to be emitted. */
  lemma WriteStep(level: int, moduleName: string, done: seq<Record>, msg: string)
    requires '\n' in msg
    ensures var record := Record(level, Prefix(moduleName) + msg[..|msg| - 1]);
      done + [record] + Emitted(level, moduleName, AfterFirst(msg, '\n'))
      == done + Emitted(level, moduleName, msg)
    ensures AfterLast(AfterFirst(msg, '\n'), '\n') == AfterLast(msg, '\n')
  {
    EmittedAtFirst(level, moduleName, msg);
    AfterLastAtFirst(msg, '\n');
  }

  /** What the loop of `write` leaves once no newline remains. */
  lemma WriteOutcome(level: int, moduleName: string, text: string, records: seq<Record>, rest: string)
    requires records + Emitted(level, moduleName, rest) == Emitted(level, moduleName, text)
    requires '\n' !in rest && AfterLast(rest, '\n') == AfterLast(text, '\n')
    ensures records == Emitted(level, moduleName, text)
    ensures |records| == Count(text, '\n')
    ensures Tagged(records, level, moduleName)
    ensures rest == AfterLast(text, '\n')
    ensures '\n' !in text ==> records == [] && rest == text
  {
    assert Emitted(level, moduleName, rest) == [];
    EmittedCount(level, moduleName, text);
    EmittedTagged(level, moduleName, text);
  }

  /** `LoggerWriter.write(message)`. */
  method Write(w: Writer, message: string) returns (w': Writer, records: seq<Record>)
    ensures w'.level == w.level && w'.moduleName == w.moduleName
    ensures '\n' !in w'.buffer
    ensures w'.buffer == AfterLast(w.buffer + message, '\n')
    ensures |records| == Count(w.buffer + message, '\n')
    ensures Tagged(records, w.level, w.moduleName)
    ensures '\n' !in w.buffer + message ==> records == [] && w'.buffer == w.buffer + message
    ensures records == Emitted(w.level, w.moduleName, w.buffer + message)
  {
    var msg := w.buffer + message;
    ghost var all := Emitted(w.level, w.moduleName, msg);
    records := [];
    while '\n' in msg
      invariant records + Emitted(w.level, w.moduleName, msg) == all
      invariant AfterLast(msg, '\n') == AfterLast(w.buffer + message, '\n')
      decreases |msg|
    {
      var pos := IndexOf(msg, '\n');
      var record := Record(w.level, Prefix(w.moduleName) + msg[..|msg| - 1]);
      WriteStep(w.level, w.moduleName, records, msg);
      records := records + [record];
      msg := msg[pos + 1..];
    }
    WriteOutcome(w.level, w.moduleName, w.buffer + message, records, msg);
    w' := w.(buffer := msg);
  }

  /** `LoggerWriter.flush()` does nothing: no record, the same writer. */
  function Flush(w: Writer): (r: (Writer, seq<Record>))
    ensures r.0 == w && r.1 == []
  {
    (w, [])
  }

  /** As written, a record that is not the last of a `write` holds every later line too:
      writing `"a\nb\n"` logs `"a\nb"` and then `"b"`. */
  lemma EmittedKeepsLaterLines(level: int, moduleName: string)
    ensures var r := Emitted(level, moduleName, "a\nb\n");
      |r| == 2 && r[0].text == Prefix(moduleName) + "a\nb" && r[1].text == Prefix(moduleName) + "b"
  {
    var s := "a\nb\n";
    assert IndexOf(s, '\n') == 1;
    assert s[2..] == "b\n";
    assert IndexOf("b\n", '\n') == 1;
    assert "b\n"[2..] == "";
  }

  /** The line bodies the loop was meant to log: the text before each newline. */
  function LineBodies(buf: string): (lines: seq<string>)
    decreases |buf|
  {
    if '\n' in buf then [BeforeFirst(buf, '\n')] + LineBodies(AfterFirst(buf, '\n')) else []
  }

  /** No line holds a newline of its own. */
  predicate Unbroken(lines: seq<string>)
  {
    forall i :: 0 <= i < |lines| ==> '\n' !in lines[i]
  }

  /** One line per newline of the text, none of them holding a newline. */
  lemma {:induction false} LineBodiesShape(buf: string)
    ensures |LineBodies(buf)| == Count(buf, '\n')
    ensures Unbroken(LineBodies(buf))
    decreases |buf|
  {
    if '\n' in buf {
      var tail := AfterFirst(buf, '\n');
      CountAtFirst(buf, '\n');
      LineBodiesShape(tail);
      var lines := LineBodies(buf);
      assert lines == [BeforeFirst(buf, '\n')] + LineBodies(tail);
      forall i | 0 <= i < |lines|
        ensures '\n' !in lines[i]
      {
        if i > 0 {
          assert lines[i] == LineBodies(tail)[i - 1];
        }
      }
    } else {
      assert LineBodies(buf) == [];
    }
  }

  /** `write` with the record body `self._msg[:pos]`. */
  function WriteLines(w: Writer, message: string): (r: (Writer, seq<Record>))
    ensures r.0.level == w.level && r.0.moduleName == w.moduleName
    ensures r.0.buffer == AfterLast(w.buffer + message, '\n')
  {
    var lines := LineBodies(w.buffer + message);
    (w.(buffer := AfterLast(w.buffer + message, '\n')),
     seq(|lines|, i requires 0 <= i < |lines| => Record(w.level, Prefix(w.moduleName) + lines[i])))
  }

  function JoinLines(lines: seq<string>): (text: string)
  {
    if |lines| == 0 then "" else lines[0] + "\n" + JoinLines(lines[1..])
  }

  /** With the intended body, the logged lines and the pending buffer give back exactly
      the text written, line by line. */
  lemma {:induction false} LineBodiesRestoreText(buf: string)
    ensures JoinLines(LineBodies(buf)) + AfterLast(buf, '\n') == buf
    decreases |buf|
  {
    if '\n' in buf {
      var head, rest := BeforeFirst(buf, '\n'), AfterFirst(buf, '\n');
      SplitAtFirst(buf, '\n');
      LineBodiesRestoreText(rest);
      AfterLastSkipsPrefix(head, '\n', rest);
      var lines := LineBodies(rest);
      var j, a := JoinLines(lines), AfterLast(rest, '\n');
      assert LineBodies(buf) == [head] + lines;
      assert ([head] + lines)[1..] == lines;
      assert JoinLines(LineBodies(buf)) == head + "\n" + j;
      SeqAssoc(head + "\n", j, a);
    }
  }

  /** A text that starts with a whole line yields that line first. */
  lemma LineBodiesCons(head: string, rest: string)
    requires '\n' !in head
    ensures LineBodies(head + "\n" + rest) == [head] + LineBodies(rest)
  {
    var buf := head + "\n" + rest;
    assert buf[|head|] == '\n';
    FirstIndex(buf, '\n', |head|);
    assert buf[..|head|] == head;
    assert buf[|head| + 1..] == rest;
  }

  /** Concatenation regroups freely; used for lines of text and for frames of elements. */
  lemma SeqAssoc<T>(a: seq<T>, b: seq<T>, c: seq<T>)
    ensures (a + b) + c == a + (b + c)
  {
  }

  /** The corrected write logs every line of the text, without its newline, and keeps
      the unfinished tail. */
  lemma WriteLinesRestoresText(w: Writer, message: string)
    ensures var r := WriteLines(w, message);
      var lines := LineBodies(w.buffer + message);
      && |r.1| == |lines| == Count(w.buffer + message, '\n')
      && (forall i :: 0 <= i < |r.1| ==> r.1[i] == Record(w.level, Prefix(w.moduleName) + lines[i]))
      && Unbroken(lines)
      && JoinLines(lines) + r.0.buffer == w.buffer + message
  {
    LineBodiesShape(w.buffer + message);
    LineBodiesRestoreText(w.buffer + message);
  }

  /** The two agree on the one pattern `print` produces: a single line ended by its newline. */
  lemma WriteAgreesOnSingleLine(w: Writer, line: string)
    requires '\n' !in w.buffer + line
    ensures Emitted(w.level, w.moduleName, w.buffer + line + "\n") == WriteLines(w, line + "\n").1
  {
    var head := w.buffer + line;
    var record := Record(w.level, Prefix(w.moduleName) + head);
    EmittedSingleLine(w.level, w.moduleName, head);
    assert w.buffer + (line + "\n") == head + "\n";
    LineBodiesCons(head, "");
    assert head + "\n" + "" == head + "\n";
    assert LineBodies("") == [];
    assert LineBodies(head + "\n") == [head];
    assert WriteLines(w, line + "\n").1 == [record];
  }

  lemma EmittedSingleLine(level: int, moduleName: string, head: string)
    requires '\n' !in head
    ensures Emitted(level, moduleName, head + "\n") == [Record(level, Prefix(moduleName) + head)]
  {
    var s := head + "\n";
    FirstIndex(s, '\n', |head|);
    assert s[..|s| - 1] == head;
    assert s[|s|..] == "";
    EmittedAtFirst(level, moduleName, s);
  }

  // ---------------------------------------------------------------------------
  // json_object_hook

  /** A decoded JSON value; a float is kept abstract as the text it was read from. */
  datatype Json = JNull | JBool(b: bool) | JInt(i: int) | JFloat(text: string) | JStr(s: string)
                | JArray(items: seq<Json>) | JObject(fields: map<string, Json>)

  /** The conversion applied to one value: `int(v)`, else `float(v)`, else `v`; a
      value that is not a string is left alone. */
  function Coerce(v: Json): (r: Json)
    ensures !v.JStr? ==> r == v
    ensures v.JStr? && r.JInt? ==> ParseInt(v.s) == Some(r.i)
    ensures r.JFloat? && v.JStr? ==> r.text == v.s && ParseInt(v.s).None? && IsFloatText(v.s)
    ensures r.JStr? ==> r == v && ParseInt(v.s).None? && !IsFloatText(v.s)
  {
    match v
    case JStr(s) =>
      (match ParseInt(s)
       case Some(n) => JInt(n)
       case None => if IsFloatText(s) then JFloat(s) else v)
    case _ => v
  }

  /** `json_object_hook(obj)`. */
  method ObjectHook(obj: map<string, Json>) returns (converted: map<string, Json>)
    ensures converted.Keys == obj.Keys
    ensures forall k :: k in obj && !obj[k].JStr? ==> converted[k] == obj[k]
    ensures forall k :: k in obj && obj[k].JStr? && ParseInt(obj[k].s).Some? ==>
      converted[k] == JInt(ParseInt(obj[k].s).value)
    ensures forall k :: k in obj && obj[k].JStr? && ParseInt(obj[k].s).None? && IsFloatText(obj[k].s) ==>
      converted[k] == JFloat(obj[k].s)
    ensures forall k :: k in obj && obj[k].JStr? && !IsFloatText(obj[k].s) ==> converted[k] == obj[k]
  {
    converted := map[];
    var todo := obj.Keys;
    while todo != {}
      invariant todo <= obj.Keys
      invariant converted.Keys == obj.Keys - todo
      invariant forall k :: k in converted ==> converted[k] == Coerce(obj[k])
      decreases todo
    {
      var k :| k in todo;
      converted := converted[k := Coerce(obj[k])];
      todo := todo - {k};
    }
    forall k | k in obj && obj[k].JStr? && ParseInt(obj[k].s).Some?
      ensures IsFloatText(obj[k].s)
    {
      IntTextIsFloatText(obj[k].s);
    }
  }

  /** Converting a converted value changes nothing, so the hook may run twice. */
  lemma CoerceIdempotent(v: Json)
    ensures Coerce(Coerce(v)) == Coerce(v)
  {
  }

  // ---------------------------------------------------------------------------
  // flatten

  /** An element an iterable yields: a value that is not iterable, a string, a bytes
      object, or any other iterable, given by the elements it yields. */
  datatype Element<T> = Atom(value: T) | Str(s: string) | Bytes(b: seq<bv8>) | Iter(items: seq<Element<T>>)

  /** Whether `flatten` yields the element itself rather than recursing into it. */
  predicate IsLeaf<T>(e: Element<T>)
  {
    !e.Iter?
  }

  predicate AllLeaves<T>(xs: seq<Element<T>>)
  {
    forall i :: 0 <= i < |xs| ==> IsLeaf(xs[i])
  }

  /** `flatten(iterable)`, as the list of what the generator yields. */
  function Flatten<T>(xs: seq<Element<T>>): (r: seq<Element<T>>)
    ensures AllLeaves(r)
    decreases xs
  {
    if |xs| == 0 then []
    else (if xs[0].Iter? then Flatten(xs[0].items) else [xs[0]]) + Flatten(xs[1..])
  }

  lemma {:induction false} FlattenAppend<T>(xs: seq<Element<T>>, ys: seq<Element<T>>)
    ensures Flatten(xs + ys) == Flatten(xs) + Flatten(ys)
    decreases |xs|
  {
    if |xs| == 0 {
      assert xs + ys == ys;
    } else {
      assert (xs + ys)[0] == xs[0];
      assert (xs + ys)[1..] == xs[1..] + ys;
      FlattenAppend(xs[1..], ys);
    }
  }

  /** A list without nested iterables flattens to itself. */
  lemma {:induction false} FlattenFlat<T>(xs: seq<Element<T>>)
    requires AllLeaves(xs)
    ensures Flatten(xs) == xs
    decreases |xs|
  {
    if |xs| > 0 {
      FlattenFlat(xs[1..]);
    }
  }

  lemma FlattenIdempotent<T>(xs: seq<Element<T>>)
    ensures Flatten(Flatten(xs)) == Flatten(xs)
  {
    FlattenFlat(Flatten(xs));
  }

  /** `[[1, 2], [3], 4]` flattens to `[1, 2, 3, 4]`; a string stays one element. */
  lemma FlattenExample()
    ensures Flatten([Iter([Atom(1), Atom(2)]), Iter([Atom(3)]), Atom(4)]) == [Atom(1), Atom(2), Atom(3), Atom(4)]
    ensures Flatten([Iter([Str("ab")]), Atom(1)]) == [Str("ab"), Atom(1)]
  {
    var a: seq<Element<int>> := [Iter([Atom(1), Atom(2)])];
    var b: seq<Element<int>> := [Iter([Atom(3)]), Atom(4)];
    FlattenAppend(a, b);
    FlattenFlat([Atom(1), Atom(2)]);
    FlattenAppend([Iter([Atom(3)])], [Atom(4)]);
    FlattenFlat([Atom(3)]);
    FlattenFlat([Atom(4)]);
    assert a + b == [Iter([Atom(1), Atom(2)]), Iter([Atom(3)]), Atom(4)];
    var c: seq<Element<int>> := [Iter([Str("ab")])];
    FlattenAppend(c, [Atom(1)]);
    FlattenFlat<int>([Str("ab")]);
    FlattenFlat([Atom(1)]);
  }

  function Size<T>(e: Element<T>): nat
    decreases e
  {
    match e
    case Iter(items) => 2 + SizeAll(items)
    case _ => 1
  }

  function SizeAll<T>(xs: seq<Element<T>>): nat
    decreases xs
  {
    if |xs| == 0 then 0 else Size(xs[0]) + SizeAll(xs[1..])
  }

  /** The frames of the suspended generators, innermost last. */
  function FlattenFrames<T>(frames: seq<seq<Element<T>>>): seq<Element<T>>
  {
    if |frames| == 0 then [] else Flatten(frames[|frames| - 1]) + FlattenFrames(frames[..|frames| - 1])
  }

  function FramesSize<T>(frames: seq<seq<Element<T>>>): nat
  {
    if |frames| == 0 then 0 else 1 + SizeAll(frames[|frames| - 1]) + FramesSize(frames[..|frames| - 1])
  }

  lemma FramesPush<T>(below: seq<seq<Element<T>>>, f: seq<Element<T>>)
    ensures FlattenFrames(below + [f]) == Flatten(f) + FlattenFrames(below)
    ensures FramesSize(below + [f]) == 1 + SizeAll(f) + FramesSize(below)
  {
    assert (below + [f])[..|below|] == below;
  }

  /** One step of the generator on a frame whose next element is an iterable. */
  lemma EnterStep<T>(out: seq<Element<T>>, rest: seq<seq<Element<T>>>, top: seq<Element<T>>)
    requires |top| > 0 && top[0].Iter?
    ensures out + FlattenFrames(rest + [top[1..]] + [top[0].items]) == out + FlattenFrames(rest + [top])
    ensures FramesSize(rest + [top[1..]] + [top[0].items]) < FramesSize(rest + [top])
  {
    var items, tail := top[0].items, top[1..];
    FramesPush(rest, top);
    FramesPush(rest, tail);
    FramesPush(rest + [tail], items);
    var a, b, c := Flatten(items), Flatten(tail), FlattenFrames(rest);
    assert Flatten(top) == a + b;
    SeqAssoc(a, b, c);
    assert SizeAll(top) == Size(top[0]) + SizeAll(tail);
  }

  /** One step of the generator on a frame whose next element it yields. */
  lemma YieldStep<T>(out: seq<Element<T>>, rest: seq<seq<Element<T>>>, top: seq<Element<T>>)
    requires |top| > 0 && !top[0].Iter?
    ensures (out + [top[0]]) + FlattenFrames(rest + [top[1..]]) == out + FlattenFrames(rest + [top])
    ensures FramesSize(rest + [top[1..]]) < FramesSize(rest + [top])
  {
    FramesPush(rest, top);
    FramesPush(rest, top[1..]);
    assert Flatten(top) == [top[0]] + Flatten(top[1..]);
  }

  /** The generator run step by step: each `yield from` suspends the current frame and
      opens one for the nested iterable; what it yields is `Flatten`. */
  method FlattenByFrames<T>(xs: seq<Element<T>>) returns (out: seq<Element<T>>)
    ensures out == Flatten(xs)
  {
    var frames: seq<seq<Element<T>>> := [xs];
    out := [];
    FramesPush([], xs);
    assert [] + [xs] == frames;
    while |frames| > 0
      invariant out + FlattenFrames(frames) == Flatten(xs)
      decreases FramesSize(frames)
    {
      var top := frames[|frames| - 1];
      var rest := frames[..|frames| - 1];
      assert frames == rest + [top];
      if |top| == 0 {
        FramesPush(rest, top);
        frames := rest;
      } else if top[0].Iter? {
        EnterStep(out, rest, top);
        frames := rest + [top[1..]] + [top[0].items];
      } else {
        YieldStep(out, rest, top);
        out := out + [top[0]];
        frames := rest + [top[1..]];
      }
    }
  }
}

=== FILE: resources.dfy ===
/** The resource manager of `anguis/resources.py` (`SnakemakeResourcesManager`):
    per-rule threads, memory and runtime looked up in a definition table, falling back
    to a `default` entry, cached in a nested `defaultdict(int)`, and scaled by the retry
    attempt. The manager's mutable attributes are the fields of an immutable `Manager`;
    every mutating call returns the next `Manager`, and a Python exception that escapes
    a call is a `Failure`. */
module Resources {
  import opened Wrappers
  import opened Strings

  /** A configuration value as loaded from YAML: an integer or a string. */
  datatype Value = IntV(i: int) | StrV(s: string)

  /** rule name -> resource key -> value. Used for the definitions, the presets
      (resource key -> preset name -> value) and the cache of resolved values. */
  type Table = map<string, map<string, Value>>

  type Positive = n: int | n > 0 witness 1

  /** A positive rational multiplier; the constructor's default memory multiplier 1.5 is `Ratio(3, 2)`. */
  datatype Ratio = Ratio(num: Positive, den: Positive)

  /** The names given to the constructor for the default rule and the three resource keys. */
  datatype Keys = Keys(defaultRule: string, threads: string, memory: string, runtime: string)

  /** The Python exceptions that can escape an operation. */
  datatype Error = KeyError(key: string) | TypeError | ValueError | IndexError

  datatype Manager = Manager(
    keys: Keys,
    memMultiplier: Ratio,
    runtimeMultiplier: Ratio,
    defined: Table,          // `defined_resources`
    presets: Option<Table>,  // `presets`
    resources: Table)        // `resources`, the cache

  /** The class attribute `default_resources`. */
  const DefaultThreads: int := 1
  const DefaultMemMb: int := 2000
  const DefaultRuntimeS: int := 3600

  /** Seconds substituted for a runtime string that does not parse. */
  const RuntimeFallbackS: int := 3600

  /** The constructor's default arguments. */
  const StandardKeys: Keys := Keys("default", "threads", "mem_mb", "runtime_s")
  const StandardMemMultiplier: Ratio := Ratio(3, 2)
  const StandardRuntimeMultiplier: Ratio := Ratio(1, 1)

  function Given(t: Option<Table>): (table: Table)
  {
    match t
    case None => map[]
    case Some(table) => table
  }

  /** The entry injected for the default rule; with coinciding key names the later
      key of the dictionary literal wins, as it does in a map display. */
  function BuiltinDefault(keys: Keys): (entry: map<string, Value>)
    ensures entry.Keys == {keys.threads, keys.memory, keys.runtime}
    ensures entry[keys.runtime] == IntV(DefaultRuntimeS)
    ensures keys.memory != keys.runtime ==> entry[keys.memory] == IntV(DefaultMemMb)
    ensures keys.threads != keys.memory && keys.threads != keys.runtime ==> entry[keys.threads] == IntV(DefaultThreads)
  {
    map[keys.threads := IntV(DefaultThreads), keys.memory := IntV(DefaultMemMb), keys.runtime := IntV(DefaultRuntimeS)]
  }

  /** `__init__`: the `presets` and `override` arguments are accepted and dropped. */
  function New(resources: Option<Table>, presets: Option<Table>, override: Option<Table>,
               memMultiplier: Ratio, runtimeMultiplier: Ratio, keys: Keys): (m: Manager)
    ensures m.keys == keys && m.memMultiplier == memMultiplier && m.runtimeMultiplier == runtimeMultiplier
    ensures m.presets == None && m.resources == map[]
    ensures m.defined.Keys == Given(resources).Keys + {keys.defaultRule}
    ensures forall rule :: rule in Given(resources) ==> m.defined[rule] == Given(resources)[rule]
    ensures keys.defaultRule !in Given(resources) ==>
      var d := m.defined[keys.defaultRule];
      && d.Keys == {keys.threads, keys.memory, keys.runtime}
      && d[keys.runtime] == IntV(DefaultRuntimeS)
      && (keys.memory != keys.runtime ==> d[keys.memory] == IntV(DefaultMemMb))
      && (keys.threads != keys.memory && keys.threads != keys.runtime ==> d[keys.threads] == IntV(DefaultThreads))
  {
    var given := Given(resources);
    var defined := if keys.defaultRule in given then given else given[keys.defaultRule := BuiltinDefault(keys)];
    Manager(keys, memMultiplier, runtimeMultiplier, defined, None, map[])
  }

  /** With the constructor's defaults and no definitions, the table holds exactly the
      built-in default entry. */
  lemma NewWithoutResources()
    ensures New(None, None, None, StandardMemMultiplier, StandardRuntimeMultiplier, StandardKeys).defined
         == map["default" := map["threads" := IntV(1), "mem_mb" := IntV(2000), "runtime_s" := IntV(3600)]]
  {
  }

  // ---------------------------------------------------------------------------
  // The cache: `collections.defaultdict(lambda: collections.defaultdict(int))`

  /** What `resources[rule][key]` evaluates to: the stored value, or 0 for a missing entry. */
  function Cached(c: Table, rule: string, key: string): (v: Value)
    ensures rule in c && key in c[rule] ==> v == c[rule][key]
    ensures rule !in c || key !in c[rule] ==> v == IntV(0)
  {
    if rule in c && key in c[rule] then c[rule][key] else IntV(0)
  }

  /** The table after `resources[rule][key]` is evaluated: both levels insert a missing key. */
  function Touch(c: Table, rule: string, key: string): (c': Table)
    ensures forall r, k :: Cached(c', r, k) == Cached(c, r, k)
    ensures rule in c' && key in c'[rule]
    ensures c'.Keys == c.Keys + {rule}
    ensures forall r :: r in c && r != rule ==> c'[r] == c[r]
    ensures rule in c && key in c[rule] ==> c' == c
  {
    var inner := if rule in c then c[rule] else map[];
    if key in inner then c else c[rule := inner[key := IntV(0)]]
  }

  /** The table after `resources[rule][key] = v`. */
  function Store(c: Table, rule: string, key: string, v: Value): (c': Table)
    ensures Cached(c', rule, key) == v
    ensures forall r, k :: (r != rule || k != key) ==> Cached(c', r, k) == Cached(c, r, k)
    ensures c'.Keys == c.Keys + {rule}
  {
    var inner := if rule in c then c[rule] else map[];
    c[rule := inner[key := v]]
  }

  // ---------------------------------------------------------------------------
  // get_resource_value

  /** Python `int(value)` for a configuration value (`None` is a `ValueError`). */
  function AsInt(v: Value): (r: Option<int>)
    ensures v.IntV? ==> r == Some(v.i)
    ensures v.StrV? && IsDigitString(v.s) ==> r == Some(DigitsValue(v.s))
    ensures v.StrV? && r.Some? ==> |v.s| > 0 && IsDigit(v.s[|v.s| - 1])
  {
    match v
    case IntV(n) => Some(n)
    case StrV(s) => ParseInt(s)
  }

  /** `defined_resources[default][resource]`, which raises `KeyError` when either key is missing. */
  function DefaultValue(m: Manager, resource: string): (r: Result<Value, Error>)
    ensures r.Success? <==> m.keys.defaultRule in m.defined && resource in m.defined[m.keys.defaultRule]
    ensures r.Success? ==> r.value == m.defined[m.keys.defaultRule][resource]
    ensures r.Failure? ==> r.error == KeyError(m.keys.defaultRule) || r.error == KeyError(resource)
  {
    if m.keys.defaultRule !in m.defined then Failure(KeyError(m.keys.defaultRule))
    else if resource !in m.defined[m.keys.defaultRule] then Failure(KeyError(resource))
    else Success(m.defined[m.keys.defaultRule][resource])
  }

  /** The value `get_resource_value` stores, or the exception it raises. A preset lookup
      on `presets is None` raises `TypeError`, which neither handler catches; a missing
      preset raises `KeyError`, which the outer handler turns into the default fallback. */
  function Resolve(m: Manager, rule: string, resource: string): (r: Result<Value, Error>)
    ensures r == Failure(TypeError) <==>
      rule in m.defined && resource in m.defined[rule] && AsInt(m.defined[rule][resource]).None? && m.presets.None?
    ensures r.Failure? && r.error.KeyError? ==> r == DefaultValue(m, resource)
    ensures r.Failure? ==> r.error == TypeError || r.error.KeyError?
  {
    if rule in m.defined && resource in m.defined[rule] then
      var v := m.defined[rule][resource];
      match AsInt(v)
      case Some(n) => Success(IntV(n))
      case None =>
        match m.presets
        case None => Failure(TypeError)
        case Some(p) =>
          if resource in p && v.s in p[resource] then Success(p[resource][v.s])
          else DefaultValue(m, resource)
    else DefaultValue(m, resource)
  }

  /** `get_resource_value(rule, resource)`: its only effect is the cache write. */
  function GetResourceValue(m: Manager, rule: string, resource: string): (r: Result<Manager, Error>)
    ensures r.Success? ==> r.value == m.(resources := r.value.resources)
    ensures r.Success? ==> rule in r.value.resources && resource in r.value.resources[rule]
    ensures r.Success? ==> forall rl, k :: (rl != rule || k != resource) ==>
      Cached(r.value.resources, rl, k) == Cached(m.resources, rl, k)
    ensures r.Failure? ==> r.error == TypeError || r.error.KeyError?
  {
    match Resolve(m, rule, resource)
    case Success(v) => Success(m.(resources := Store(m.resources, rule, resource, v)))
    case Failure(e) => Failure(e)
  }

  /** An integer, or a string `int()` accepts, is stored as that integer. */
  lemma ResolveLiteral(m: Manager, rule: string, resource: string)
    requires rule in m.defined && resource in m.defined[rule]
    requires AsInt(m.defined[rule][resource]).Some?
    ensures GetResourceValue(m, rule, resource).Success?
    ensures Cached(GetResourceValue(m, rule, resource).value.resources, rule, resource)
         == IntV(AsInt(m.defined[rule][resource]).value)
  {
  }

  /** A rule or resource missing from the definitions takes the default entry's value
      as it is (not converted); a resource the default entry lacks raises `KeyError`. */
  lemma ResolveMissing(m: Manager, rule: string, resource: string)
    requires rule !in m.defined || resource !in m.defined[rule]
    requires m.keys.defaultRule in m.defined
    ensures var r := GetResourceValue(m, rule, resource);
      if resource in m.defined[m.keys.defaultRule] then
        r.Success? && Cached(r.value.resources, rule, resource) == m.defined[m.keys.defaultRule][resource]
      else r == Failure(KeyError(resource))
  {
  }

  /** A string that is not an integer goes to the presets; with no presets the lookup
      raises `TypeError`, which escapes. */
  lemma ResolveWithoutPresets(m: Manager, rule: string, resource: string)
    requires rule in m.defined && resource in m.defined[rule]
    requires AsInt(m.defined[rule][resource]).None?
    requires m.presets.None?
    ensures GetResourceValue(m, rule, resource) == Failure(TypeError)
  {
  }

  /** With presets, a known preset name yields the preset's value as it is, and an
      unknown one falls back to the default entry. */
  lemma ResolveWithPresets(m: Manager, rule: string, resource: string)
    requires rule in m.defined && resource in m.defined[rule]
    requires AsInt(m.defined[rule][resource]).None?
    requires m.presets.Some? && m.keys.defaultRule in m.defined
    ensures var name := m.defined[rule][resource].s;
      var p := m.presets.value;
      var r := GetResourceValue(m, rule, resource);
      if resource in p && name in p[resource] then
        r.Success? && Cached(r.value.resources, rule, resource) == p[resource][name]
      else if resource in m.defined[m.keys.defaultRule] then
        r.Success? && Cached(r.value.resources, rule, resource) == m.defined[m.keys.defaultRule][resource]
      else r == Failure(KeyError(resource))
  {
    assert m.defined[rule][resource].StrV?;
  }

  /** As constructed, the manager never has presets, so every non-integer string in a
      rule's definition makes `get_resource_value` raise. */
  lemma ConstructedRejectsPresetNames(resources: Option<Table>, presets: Option<Table>, override: Option<Table>,
                                      mem: Ratio, runtime: Ratio, keys: Keys, rule: string, resource: string)
    requires rule in Given(resources) && resource in Given(resources)[rule]
    requires AsInt(Given(resources)[rule][resource]).None?
    ensures GetResourceValue(New(resources, presets, override, mem, runtime, keys), rule, resource) == Failure(TypeError)
  {
    var m := New(resources, presets, override, mem, runtime, keys);
    ResolveWithoutPresets(m, rule, resource);
  }

  /** A second call with the same arguments leaves the manager as the first left it. */
  lemma GetResourceValueIdempotent(m: Manager, rule: string, resource: string)
    requires GetResourceValue(m, rule, resource).Success?
    ensures var m' := GetResourceValue(m, rule, resource).value;
      GetResourceValue(m', rule, resource) == Success(m')
  {
    var m' := GetResourceValue(m, rule, resource).value;
    assert Resolve(m', rule, resource) == Resolve(m, rule, resource);
    var v := Resolve(m, rule, resource).value;
    var inner := m'.resources[rule];
    assert inner[resource := v] == inner;
    assert m'.resources[rule := inner] == m'.resources;
  }

  // ---------------------------------------------------------------------------
  // get_threads

  /** `get_threads(rule)`: the cached value as stored; the `KeyError` branch cannot run,
      since the cache is a `defaultdict`, whose read inserts a 0 that changes no reading. */
  function GetThreads(m: Manager, rule: string): (r: (Value, Manager))
    ensures r.1 == m.(resources := r.1.resources)
    ensures forall rl, k :: Cached(r.1.resources, rl, k) == Cached(m.resources, rl, k)
    ensures rule in r.1.resources && m.keys.threads in r.1.resources[rule]
    ensures r.0 == Cached(r.1.resources, rule, m.keys.threads)
  {
    (Cached(m.resources, rule, m.keys.threads), m.(resources := Touch(m.resources, rule, m.keys.threads)))
  }

  /** After resolution, `get_threads` reads back exactly the resolved value. */
  lemma ThreadsAfterResolve(m: Manager, rule: string)
    requires GetResourceValue(m, rule, m.keys.threads).Success?
    ensures GetThreads(GetResourceValue(m, rule, m.keys.threads).value, rule).0
         == Resolve(m, rule, m.keys.threads).value
  {
  }

  /** Before any resolution every rule, the default rule included, reads back 0 threads. */
  /** A rule whose threads were never resolved reads back 0, whatever else was resolved. */
  lemma ThreadsNeverResolved(m: Manager, rule: string)
    requires rule !in m.resources || m.keys.threads !in m.resources[rule]
    ensures GetThreads(m, rule).0 == IntV(0)
  {
  }

  lemma ThreadsBeforeResolve(resources: Option<Table>, presets: Option<Table>, override: Option<Table>,
                             mem: Ratio, runtime: Ratio, keys: Keys, rule: string)
    ensures GetThreads(New(resources, presets, override, mem, runtime, keys), rule).0 == IntV(0)
  {
  }

  // ---------------------------------------------------------------------------
  // Attempt scaling

  function Pow(b: int, e: nat): (r: int)
    ensures b > 0 ==> r > 0
    decreases e
  {
    if e == 0 then 1 else b * Pow(b, e - 1)
  }

  lemma MulMonotone(x: int, y: int, z: int)
    requires x <= y && z >= 0
    ensures x * z <= y * z
  {
    assert y * z - x * z == (y - x) * z;
  }

  lemma {:induction false} PowMonotone(a: int, b: int, e: nat)
    requires a >= b > 0
    ensures Pow(a, e) >= Pow(b, e)
    decreases e
  {
    if e > 0 {
      PowMonotone(a, b, e - 1);
      MulMonotone(b, a, Pow(a, e - 1));
      MulMonotone(Pow(b, e - 1), Pow(a, e - 1), b);
    }
  }

  /** Python `int(x)` for the exact quotient `x = a / b`: truncation toward zero. */
  function TruncDiv(a: int, b: Positive): (q: int)
    ensures a >= 0 ==> q >= 0 && q * b <= a < q * b + b
    ensures a < 0 ==> q <= 0 && q * b - b < a <= q * b
  {
    if a >= 0 then a / b else -((-a) / b)
  }

  /** `int(n * multiplier ** exponent)`, computed exactly on the rational multiplier. */
  function Scale(n: int, k: Ratio, exponent: int): (r: int)
    ensures n >= 0 ==> r >= 0
    ensures n <= 0 ==> r <= 0
  {
    if exponent >= 0 then TruncDiv(n * Pow(k.num, exponent), Pow(k.den, exponent))
    else TruncDiv(n * Pow(k.den, -exponent), Pow(k.num, -exponent))
  }

  lemma TruncDivExact(n: int, p: Positive)
    ensures TruncDiv(n * p, p) == n
  {
    var q := TruncDiv(n * p, p);
    var a := n - q;
    assert a * p == n * p - q * p;
    if a >= 1 {
      assert false;
    } else if a <= -1 {
      assert false;
    }
  }

  /** A multiplier of one scales nothing, whatever the attempt. */
  lemma ScaleUnitMultiplier(n: int, k: Ratio, exponent: int)
    requires k.num == k.den
    ensures Scale(n, k, exponent) == n
  {
    var p := if exponent >= 0 then Pow(k.num, exponent) else Pow(k.num, -exponent);
    TruncDivExact(n, p);
  }

  /** A multiplier of at least one never scales a non-negative value below itself. */
  lemma ScaleNeverBelow(n: int, k: Ratio, exponent: nat)
    requires n >= 0 && k.num >= k.den
    ensures Scale(n, k, exponent) >= n
  {
    var a := Pow(k.num, exponent);
    var b := Pow(k.den, exponent);
    PowMonotone(k.num, k.den, exponent);
    MulMonotone(b, a, n);
    var q := TruncDiv(n * a, b);
    assert n * a < q * b + b;
    if q < n {
      MulMonotone(q + 1, n, b);
      assert false;
    }
  }

  // ---------------------------------------------------------------------------
  // get_mem

  /** What `get_mem` returns: an integer of megabytes, a string returned unchanged, or
      the text `f'{tmp}{suffix}'` of the float branch, kept abstract as the number text
      before the suffix, the suffix, and the exponent of the multiplier applied to it. */
  datatype Mem = MemMb(mb: int) | MemText(text: string) | MemScaledFloat(number: string, suffix: char, exponent: int)

  /** `get_mem(rule, attempt)`. Its only failures are the `IndexError` and `ValueError`
      of the string branches; the `OverflowError` Python's float arithmetic raises for a
      huge value or attempt is not modelled. */
  function GetMem(m: Manager, rule: string, attempt: int): (r: Result<(Mem, Manager), Error>)
    ensures r.Success? ==> r.value.1 == m.(resources := r.value.1.resources)
    ensures r.Success? ==> forall rl, k :: Cached(r.value.1.resources, rl, k) == Cached(m.resources, rl, k)
    ensures r.Failure? ==> rule in m.resources && m.keys.memory in m.resources[rule]
    ensures r.Failure? ==> r.error == IndexError || r.error == ValueError
    ensures Cached(m.resources, rule, m.keys.memory) == StrV("") ==> r == Failure(IndexError)
    ensures var v := Cached(m.resources, rule, m.keys.memory);
      v.StrV? && !IsDigitString(v.s) && |v.s| > 0 && v.s[|v.s| - 1] in {'G', 'M', 'K'} ==>
        (r == Failure(ValueError) <==> !IsFloatText(v.s[..|v.s| - 1]))
  {
    var v := Cached(m.resources, rule, m.keys.memory);
    var m' := m.(resources := Touch(m.resources, rule, m.keys.memory));
    var e := attempt - 1;
    match v
    case IntV(n) => Success((MemMb(Scale(n, m.memMultiplier, e)), m'))
    case StrV(s) =>
      if IsDigitString(s) then Success((MemMb(Scale(DigitsValue(s), m.memMultiplier, e)), m'))
      else if |s| == 0 then Failure(IndexError)
      else if s[|s| - 1] in {'G', 'M', 'K'} then
        if IsFloatText(s[..|s| - 1]) then Success((MemScaledFloat(s[..|s| - 1], s[|s| - 1], e), m'))
        else Failure(ValueError)
      else Success((MemText(s), m'))
  }

  /** At the first attempt an integer or digit string comes back as that integer, and a
      non-empty string without a size suffix comes back unchanged. */
  lemma GetMemFirstAttempt(m: Manager, rule: string)
    ensures var v := Cached(m.resources, rule, m.keys.memory);
      var r := GetMem(m, rule, 1);
      && (v.IntV? ==> r.Success? && r.value.0 == MemMb(v.i))
      && (v.StrV? && IsDigitString(v.s) ==> r.Success? && r.value.0 == MemMb(DigitsValue(v.s)))
      && (v.StrV? && !IsDigitString(v.s) && |v.s| > 0 && v.s[|v.s| - 1] !in {'G', 'M', 'K'} ==>
            r.Success? && r.value.0 == MemText(v.s))
  {
    var v := Cached(m.resources, rule, m.keys.memory);
    if v.IntV? {
      ScaleUnitMultiplier(v.i, Ratio(1, 1), 0);
    } else if IsDigitString(v.s) {
      ScaleUnitMultiplier(DigitsValue(v.s), Ratio(1, 1), 0);
    }
  }

  /** With a multiplier of at least one, a retry never asks for less memory than the
      first attempt, for an integer and for a digit string alike. */
  lemma GetMemNeverBelow(m: Manager, rule: string, attempt: int)
    requires attempt >= 1 && m.memMultiplier.num >= m.memMultiplier.den
    ensures var v := Cached(m.resources, rule, m.keys.memory);
      var r := GetMem(m, rule, attempt);
      && (v.IntV? && v.i >= 0 ==> r.Success? && r.value.0.MemMb? && r.value.0.mb >= v.i)
      && (v.StrV? && IsDigitString(v.s) ==> r.Success? && r.value.0.MemMb? && r.value.0.mb >= DigitsValue(v.s))
  {
    var v := Cached(m.resources, rule, m.keys.memory);
    if v.IntV? && v.i >= 0 {
      ScaleNeverBelow(v.i, m.memMultiplier, attempt - 1);
    } else if v.StrV? && IsDigitString(v.s) {
      ScaleNeverBelow(DigitsValue(v.s), m.memMultiplier, attempt - 1);
    }
  }

  /** With the default multiplier 1.5, 2000 MB becomes 3000 MB at the second attempt. */
  lemma GetMemSecondAttemptExample(m: Manager, rule: string)
    requires m.memMultiplier == StandardMemMultiplier
    requires Cached(m.resources, rule, m.keys.memory) == IntV(2000)
    ensures GetMem(m, rule, 2).Success? && GetMem(m, rule, 2).value.0 == MemMb(3000)
  {
    assert Pow(3, 1) == 3 && Pow(2, 1) == 2;
    assert Scale(2000, StandardMemMultiplier, 1) == TruncDiv(6000, 2) == 3000;
  }

  // ---------------------------------------------------------------------------
  // get_runtime

  /** `d, h, m, s = (int(f) for f in re.split(':|-', runtime))`: exactly four fields
      that `int()` accepts, or `None` for the `ValueError` of either kind. */
  function RuntimeFields(s: string): (r: Option<(int, int, int, int)>)
    ensures r.Some? ==> Count(s, ':') + Count(s, '-') == 3
    ensures r.Some? ==> r.value.0 >= 0 && r.value.1 >= 0 && r.value.2 >= 0 && r.value.3 >= 0
  {
    var f := SplitFields(s);
    SplitFieldsCount(s);
    if |f| == 4 && ParseInt(f[0]).Some? && ParseInt(f[1]).Some? && ParseInt(f[2]).Some? && ParseInt(f[3]).Some?
    then
      assert NoSep(f[0]) && NoSep(f[1]) && NoSep(f[2]) && NoSep(f[3]);
      Some((ParseInt(f[0]).value, ParseInt(f[1]).value, ParseInt(f[2]).value, ParseInt(f[3]).value))
    else None
  }

  /** A runtime string in seconds: `((d * 24 + h) * 60 + m) * 60 + s`, or the fallback,
      which every text without exactly three separators takes. */
  function ParseRuntime(s: string): (t: int)
    ensures t >= 0
    ensures Count(s, ':') + Count(s, '-') != 3 ==> t == RuntimeFallbackS
    ensures (exists i :: 0 <= i < |SplitFields(s)| && ParseInt(SplitFields(s)[i]).None?) ==> t == RuntimeFallbackS
  {
    match RuntimeFields(s)
    case Some((d, h, mi, sec)) => ((d * 24 + h) * 60 + mi) * 60 + sec
    case None => RuntimeFallbackS
  }

  /** The runtime a cached value stands for: an integer as is, a string parsed. */
  function BaseRuntime(v: Value): (time: int)
    ensures v.IntV? ==> time == v.i
    ensures v.StrV? ==> time >= 0
    ensures v.StrV? && Count(v.s, ':') + Count(v.s, '-') != 3 ==> time == RuntimeFallbackS
  {
    match v
    case IntV(n) => n
    case StrV(s) => ParseRuntime(s)
  }

  /** `int(time * (1 + (attempt - 1) / 2))` with the exact quotient. */
  function ScaleRuntime(time: int, attempt: int): (r: int)
    ensures time >= 0 && attempt >= 1 ==> 2 * r <= time * (attempt + 1) < 2 * r + 2
    ensures time >= 0 && attempt >= 1 ==> r >= time
    ensures attempt == 1 ==> r == time
  {
    TruncDiv(time * (attempt + 1), 2)
  }

  /** `get_runtime(rule, attempt)`; `runtime_attempt_multiplier` is not used. The model has
      no failure: the `OverflowError` Python's float product raises for a huge time is not
      modelled. */
  function GetRuntime(m: Manager, rule: string, attempt: int): (r: (int, Manager))
    ensures r.1 == m.(resources := r.1.resources)
    ensures forall rl, k :: Cached(r.1.resources, rl, k) == Cached(m.resources, rl, k)
    ensures attempt == 1 ==> r.0 == BaseRuntime(Cached(m.resources, rule, m.keys.runtime))
  {
    var v := Cached(m.resources, rule, m.keys.runtime);
    (ScaleRuntime(BaseRuntime(v), attempt), m.(resources := Touch(m.resources, rule, m.keys.runtime)))
  }

  /** A never-resolved rule reads back a runtime of 0, which no attempt scales. */
  lemma RuntimeBeforeResolve(resources: Option<Table>, presets: Option<Table>, override: Option<Table>,
                             mem: Ratio, runtime: Ratio, keys: Keys, rule: string, attempt: int)
    ensures GetRuntime(New(resources, presets, override, mem, runtime, keys), rule, attempt).0 == 0
  {
  }

  /** The result is `floor(time * (attempt + 1) / 2)` and never below the first attempt's. */
  lemma GetRuntimeScaling(m: Manager, rule: string, attempt: int)
    requires attempt >= 1
    requires BaseRuntime(Cached(m.resources, rule, m.keys.runtime)) >= 0
    ensures var time := BaseRuntime(Cached(m.resources, rule, m.keys.runtime));
      var r := GetRuntime(m, rule, attempt).0;
      r == time * (attempt + 1) / 2 && r >= time
  {
    var time := BaseRuntime(Cached(m.resources, rule, m.keys.runtime));
    var r := GetRuntime(m, rule, attempt).0;
    var x := time * (attempt + 1);
    assert 2 * r <= x < 2 * r + 2;
    assert x / 2 == r;
  }

  /** `runtime_attempt_multiplier` has no effect on the runtime. */
  lemma GetRuntimeIgnoresMultiplier(m: Manager, rule: string, attempt: int, k: Ratio)
    ensures GetRuntime(m.(runtimeMultiplier := k), rule, attempt).0 == GetRuntime(m, rule, attempt).0
  {
  }

  /** Two-digit, zero-padded rendering of a clock field. */
  function Pad2(n: nat): (s: string)
  {
    if n < 10 then "0" + NatToString(n) else NatToString(n)
  }

  /** The `D-HH:MM:SS` form of a duration. */
  function FormatRuntime(d: nat, h: nat, mi: nat, sec: nat): (s: string)
  {
    NatToString(d) + "-" + Pad2(h) + ":" + Pad2(mi) + ":" + Pad2(sec)
  }

  lemma DigitsHaveNoSep(s: string)
    requires AllDigits(s)
    ensures NoSep(s)
  {
    assert forall j :: 0 <= j < |s| ==> IsDigit(s[j]);
  }

  lemma Pad2Parses(n: nat)
    ensures NoSep(Pad2(n)) && ParseInt(Pad2(n)) == Some(n)
  {
    var t := NatToString(n);
    NatToStringRoundTrip(n);
    if n < 10 {
      ParseIntLeadingZero(t);
      LeadingZero(t);
    }
    DigitsHaveNoSep(Pad2(n));
  }

  /** The `D-HH:MM:SS` form splits into its four numerals. */
  lemma FormatRuntimeFields(d: nat, h: nat, mi: nat, sec: nat)
    ensures SplitFields(FormatRuntime(d, h, mi, sec)) == [NatToString(d), Pad2(h), Pad2(mi), Pad2(sec)]
  {
    var a, b, c, e := NatToString(d), Pad2(h), Pad2(mi), Pad2(sec);
    DigitsHaveNoSep(a);
    Pad2Parses(h);
    Pad2Parses(mi);
    Pad2Parses(sec);
    assert FormatRuntime(d, h, mi, sec) == a + ['-'] + (b + [':'] + (c + [':'] + e));
    SplitAtSep(a, '-', b + [':'] + (c + [':'] + e));
    SplitAtSep(b, ':', c + [':'] + e);
    SplitAtSep(c, ':', e);
    SplitNoSep(e);
  }

  /** Parsing the `D-HH:MM:SS` form gives back the duration in seconds. */
  lemma ParseRuntimeRoundTrip(d: nat, h: nat, mi: nat, sec: nat)
    ensures ParseRuntime(FormatRuntime(d, h, mi, sec)) == ((d * 24 + h) * 60 + mi) * 60 + sec
  {
    NatToStringRoundTrip(d);
    Pad2Parses(h);
    Pad2Parses(mi);
    Pad2Parses(sec);
    FormatRuntimeFields(d, h, mi, sec);
  }

  /** `"1-02:30:00"` is 95400 seconds. */
  lemma ParseRuntimeExample()
    ensures ParseRuntime("1-02:30:00") == 95400
  {
    assert FormatRuntime(1, 2, 30, 0) == "1-02:30:00";
    ParseRuntimeRoundTrip(1, 2, 30, 0);
  }

  /** Text without a separator, `"bogus"` or a plain number of seconds such as `"7200"`
      alike, is a single field and so takes the 3600-second fallback. */
  lemma ParseRuntimeSingleField(s: string)
    requires NoSep(s)
    ensures ParseRuntime(s) == RuntimeFallbackS
  {
    SplitNoSep(s);
  }

  lemma ParseRuntimeBogus()
    ensures ParseRuntime("bogus") == RuntimeFallbackS
  {
    ParseRuntimeSingleField("bogus");
  }

  /** `"01:30:00"`, an `HH:MM:SS` duration without days, has only two separators and
      takes the fallback rather than being read as 5400 seconds. */
  lemma ParseRuntimeWithoutDays()
    ensures ParseRuntime("01:30:00") == RuntimeFallbackS
  {
    var a, b, c := "01", "30", "00";
    assert "01:30:00" == a + [':'] + (b + [':'] + c);
    DigitsHaveNoSep(a);
    DigitsHaveNoSep(b);
    DigitsHaveNoSep(c);
    SplitAtSep(a, ':', b + [':'] + c);
    SplitAtSep(b, ':', c);
    SplitNoSep(c);
    assert |SplitFields("01:30:00")| == 3;
  }

  /** Any four separator-free texts `int()` accepts, joined by any three `:`/`-`
      separators, zero-padded or not and with a `+` sign or not, give the seconds formula
      on their values. */
  lemma ParseRuntimeFields(a: string, b: string, c: string, e: string, s1: char, s2: char, s3: char)
    requires NoSep(a) && NoSep(b) && NoSep(c) && NoSep(e)
    requires IsSep(s1) && IsSep(s2) && IsSep(s3)
    requires ParseInt(a).Some? && ParseInt(b).Some? && ParseInt(c).Some? && ParseInt(e).Some?
    ensures ParseRuntime(a + [s1] + b + [s2] + c + [s3] + e) ==
      ((ParseInt(a).value * 24 + ParseInt(b).value) * 60 + ParseInt(c).value) * 60 + ParseInt(e).value
  {
    var s := a + [s1] + b + [s2] + c + [s3] + e;
    assert s == a + [s1] + (b + [s2] + (c + [s3] + e));
    SplitAtSep(a, s1, b + [s2] + (c + [s3] + e));
    SplitAtSep(b, s2, c + [s3] + e);
    SplitAtSep(c, s3, e);
    SplitNoSep(e);
    assert SplitFields(s) == [a, b, c, e];
  }

  /** Four separator-free fields joined by three `:`/`-` separators still take the
      fallback when `int()` rejects any one of them, as it does the `"0x"` of `"1-02:30:0x"`. */
  lemma ParseRuntimeRejectedField(a: string, b: string, c: string, e: string, s1: char, s2: char, s3: char)
    requires NoSep(a) && NoSep(b) && NoSep(c) && NoSep(e)
    requires IsSep(s1) && IsSep(s2) && IsSep(s3)
    requires ParseInt(a).None? || ParseInt(b).None? || ParseInt(c).None? || ParseInt(e).None?
    ensures ParseRuntime(a + [s1] + b + [s2] + c + [s3] + e) == RuntimeFallbackS
  {
    var s := a + [s1] + b + [s2] + c + [s3] + e;
    assert s == a + [s1] + (b + [s2] + (c + [s3] + e));
    SplitAtSep(a, s1, b + [s2] + (c + [s3] + e));
    SplitAtSep(b, s2, c + [s3] + e);
    SplitAtSep(c, s3, e);
    SplitNoSep(e);
    var f := SplitFields(s);
    assert f == [a, b, c, e];
    assert f[0] == a && f[1] == b && f[2] == c && f[3] == e;
  }
}

=== FILE: strings.dfy ===
/** Text recognition shared by the resource manager and the JSON hook: what Python's
    `int()` and `float()` accept (restricted to ASCII, without surrounding whitespace
    or digit-group underscores), decimal rendering of integers, `re.split(':|-', s)`,
    and the newline search that the logger writer performs. */
module Strings {
  import opened Wrappers

  predicate IsDigit(c: char) { '0' <= c <= '9' }

  predicate IsSign(c: char) { c == '+' || c == '-' }

  function DigitValue(c: char): (d: nat)
    requires IsDigit(c)
    ensures d < 10
  {
    (c as int) - ('0' as int)
  }

  function DigitChar(d: nat): (c: char)
    requires d < 10
    ensures IsDigit(c) && DigitValue(c) == d
  {
    ((('0' as int) + d) as char)
  }

  predicate AllDigits(s: string)
  {
    forall i :: 0 <= i < |s| ==> IsDigit(s[i])
  }

  /** `str.isdigit()`: non-empty and every character a decimal digit. */
  predicate IsDigitString(s: string)
  {
    |s| > 0 && AllDigits(s)
  }

  /** Base-10 value of a digit string, most significant digit first. */
  function DigitsValue(s: string): (v: nat)
    requires AllDigits(s)
    decreases |s|
  {
    if |s| == 0 then 0 else 10 * DigitsValue(s[..|s| - 1]) + DigitValue(s[|s| - 1])
  }

  /** Canonical decimal rendering of a natural number (no leading zero). */
  function NatToString(n: nat): (s: string)
    ensures IsDigitString(s)
    ensures |s| > 1 ==> s[0] != '0'
    decreases n
  {
    if n < 10 then [DigitChar(n)] else NatToString(n / 10) + [DigitChar(n % 10)]
  }

  lemma {:induction false} NatToStringRoundTrip(n: nat)
    ensures DigitsValue(NatToString(n)) == n
    decreases n
  {
    if n >= 10 {
      var s := NatToString(n);
      assert s[..|s| - 1] == NatToString(n / 10);
      NatToStringRoundTrip(n / 10);
    }
  }

  /** A leading zero does not change the value of a digit string, so `"02"` reads as 2. */
  lemma {:induction false} LeadingZero(s: string)
    requires AllDigits(s)
    ensures AllDigits("0" + s) && DigitsValue("0" + s) == DigitsValue(s)
    decreases |s|
  {
    var z := "0" + s;
    assert AllDigits(z) by {
      forall i | 0 <= i < |z| ensures IsDigit(z[i]) {
        if i > 0 { assert z[i] == s[i - 1]; }
      }
    }
    if |s| > 0 {
      assert z[..|z| - 1] == "0" + s[..|s| - 1];
      LeadingZero(s[..|s| - 1]);
    }
  }

  /** Python `int(s)` on a string: an optional sign followed by one or more ASCII digits;
      anything else raises `ValueError` (modelled as `None`). */
  function ParseInt(s: string): (r: Option<int>)
    ensures r.Some? ==> |s| > 0 && IsDigit(s[|s| - 1])
    ensures r.Some? ==> forall i :: 0 < i < |s| ==> IsDigit(s[i])
    ensures r.Some? ==> IsDigit(s[0]) || IsSign(s[0])
    ensures r.Some? && r.value < 0 ==> s[0] == '-'
  {
    if IsDigitString(s) then Some(DigitsValue(s))
    else if |s| > 1 && IsSign(s[0]) && IsDigitString(s[1..]) then
      var v: int := DigitsValue(s[1..]);
      assert forall i :: 0 < i < |s| ==> s[i] == s[1..][i - 1];
      Some(if s[0] == '-' then -v else v)
    else None
  }

  /** Python `str(n)` for an integer. */
  function IntToString(n: int): (s: string)
    ensures |s| > 0
  {
    if n < 0 then "-" + NatToString(-n) else NatToString(n)
  }

  lemma ParseIntRoundTrip(n: int)
    ensures ParseInt(IntToString(n)) == Some(n)
  {
    if n < 0 {
      var s := IntToString(n);
      assert s[1..] == NatToString(-n);
      NatToStringRoundTrip(-n);
    } else {
      NatToStringRoundTrip(n);
    }
  }

  /** The same text with a leading zero parses to the same integer. */
  lemma ParseIntLeadingZero(s: string)
    requires IsDigitString(s)
    ensures ParseInt("0" + s) == ParseInt(s)
  {
    LeadingZero(s);
  }

  function DropSign(s: string): (t: string)
    ensures |t| <= |s|
  {
    if |s| > 0 && IsSign(s[0]) then s[1..] else s
  }

  function Lower(c: char): (l: char)
  {
    if 'A' <= c <= 'Z' then ((c as int) + 32) as char else c
  }

  function LowerString(s: string): (t: string)
    ensures |t| == |s|
  {
    seq(|s|, i requires 0 <= i < |s| => Lower(s[i]))
  }

  /** Index of the first occurrence of `c`: Python's `s.find(c)` when `c` occurs. */
  function IndexOf(s: string, c: char): (i: nat)
    requires c in s
    ensures i < |s| && s[i] == c
  {
    if s[0] == c then 0 else IndexOf(s[1..], c) + 1
  }

  /** No occurrence of `c` precedes the one `IndexOf` finds. */
  lemma {:induction false} IndexOfIsFirst(s: string, c: char)
    requires c in s
    ensures c !in s[..IndexOf(s, c)]
  {
    if s[0] != c {
      var j := IndexOf(s[1..], c);
      IndexOfIsFirst(s[1..], c);
      assert s[..j + 1] == [s[0]] + s[1..][..j];
    }
  }

  /** A mantissa: digits with at most one decimal point, and at least one digit. */
  predicate IsMantissa(m: string)
  {
    if '.' in m then
      var k := IndexOf(m, '.');
      |m| > 1 && AllDigits(m[..k]) && AllDigits(m[k + 1..])
    else IsDigitString(m)
  }

  /** What Python's `float()` accepts, case-insensitively: an optional sign, then
      `inf`, `infinity`, `nan`, or a mantissa with an optional exponent. */
  function IsFloatText(s: string): (b: bool)
    ensures b ==> |DropSign(s)| > 0
  {
    var t := LowerString(DropSign(s));
    if t == "inf" || t == "infinity" || t == "nan" then true
    else if 'e' in t then
      var k := IndexOf(t, 'e');
      IsMantissa(t[..k]) && IsDigitString(DropSign(t[k + 1..]))
    else IsMantissa(t)
  }

  /** Every integer text is also a float text, so `int()` is tried first for a reason:
      without it the JSON hook would turn `"12"` into a float. */
  lemma IntTextIsFloatText(s: string)
    requires ParseInt(s).Some?
    ensures IsFloatText(s)
  {
    var d := DropSign(s);
    assert IsDigitString(d);
    var t := LowerString(d);
    assert forall i :: 0 <= i < |t| ==> t[i] == d[i];
    assert t == d;
    assert 'e' !in t && '.' !in t;
  }

  /** `isdigit()` text is exactly what `int()` reads as its digits' value; it is a float text too. */
  lemma DigitStringParses(s: string)
    requires IsDigitString(s)
    ensures ParseInt(s) == Some(DigitsValue(s))
    ensures IsFloatText(s)
  {
    IntTextIsFloatText(s);
  }

  /** Digits, a point and digits, with a digit on at least one side, are a float text. */
  lemma DecimalIsFloatText(a: string, b: string)
    requires AllDigits(a) && AllDigits(b) && |a| + |b| > 0
    ensures IsFloatText(a + "." + b)
  {
    var s := a + "." + b;
    assert forall i :: 0 <= i < |s| ==> IsDigit(s[i]) || s[i] == '.';
    assert DropSign(s) == s;
    assert LowerString(s) == s;
    assert 'e' !in s;
    assert s != "inf" && s != "nan" && s != "infinity" by {
      assert s[0] != 'i' && s[0] != 'n';
    }
    IndexOfIsFirst(s, '.');
    assert IndexOf(s, '.') == |a|;
    assert s[..|a|] == a && s[|a| + 1..] == b;
  }

  /** `"1.5"` and the bare fraction `".5"` are float texts. */
  lemma FloatTextAcceptsDecimals()
    ensures IsFloatText("1.5") && IsFloatText(".5")
  {
    DecimalIsFloatText("1", "5");
    assert "1" + "." + "5" == "1.5";
    DecimalIsFloatText("", "5");
    assert "" + "." + "5" == ".5";
  }

  /** A signed exponent form and an upper-case infinity are float texts too. */
  lemma FloatTextAcceptsOthers()
    ensures IsFloatText("-2e3") && IsFloatText("INF")
  {
    assert DropSign("-2e3") == "2e3";
    assert LowerString("2e3") == "2e3";
    assert IndexOf("2e3", 'e') == 1;
    assert LowerString("INF") == "inf";
  }

  /** Texts `float()` rejects for want of digits: nothing, and an exponent without mantissa. */
  lemma FloatTextRejectsEmpty()
    ensures !IsFloatText("") && !IsFloatText("e5")
  {
    assert LowerString("e5") == "e5";
    assert IndexOf("e5", 'e') == 0;
  }

  /** Texts `float()` rejects for their points: a lone point, and two points. */
  lemma FloatTextRejectsPoints()
    ensures !IsFloatText(".") && !IsFloatText("1.2.3")
  {
    assert LowerString(".") == ".";
    assert LowerString("1.2.3") == "1.2.3";
    assert 'e' !in "1.2.3";
    assert IndexOf("1.2.3", '.') == 1;
    assert "1.2.3"[2..] == "2.3" && !IsDigit("2.3"[1]);
  }

  function Count(s: string, c: char): (n: nat)
    ensures n <= |s|
    ensures n == 0 <==> c !in s
    decreases |s|
  {
    if |s| == 0 then 0 else (if s[0] == c then 1 else 0) + Count(s[1..], c)
  }

  /** The first occurrence of `c` is one of its `Count`. */
  lemma {:induction false} CountAtFirst(s: string, c: char)
    requires c in s
    ensures Count(s, c) == 1 + Count(AfterFirst(s, c), c)
  {
    if s[0] != c {
      var t := s[1..];
      assert c in t by { var k :| 0 <= k < |s| && s[k] == c; assert t[k - 1] == c; }
      CountAtFirst(t, c);
      assert AfterFirst(s, c) == AfterFirst(t, c);
    }
  }

  /** The text after the last occurrence of `c`, or all of `s` when `c` does not occur,
      computed from the right-hand end. */
  function AfterLast(s: string, c: char): (r: string)
    ensures c !in r
    ensures c !in s ==> r == s
    decreases |s|
  {
    if |s| == 0 then ""
    else if s[|s| - 1] == c then ""
    else
      var p := s[..|s| - 1];
      assert s == p + [s[|s| - 1]];
      AfterLast(p, c) + [s[|s| - 1]]
  }

  /** `AfterLast` is a suffix of the text, and what precedes it is a `c`: it is the
      segment after the last occurrence of `c`. */
  lemma {:induction false} AfterLastIsFinalSegment(s: string, c: char)
    ensures var r := AfterLast(s, c);
      |r| <= |s| && r == s[|s| - |r|..] && (|r| < |s| ==> s[|s| - |r| - 1] == c)
    decreases |s|
  {
    if |s| > 0 && s[|s| - 1] != c {
      var p := s[..|s| - 1];
      AfterLastIsFinalSegment(p, c);
      var r' := AfterLast(p, c);
      assert AfterLast(s, c) == r' + [s[|s| - 1]];
      assert p[|p| - |r'|..] + [s[|s| - 1]] == s[|s| - |r'| - 1..];
    }
  }

  /** Whatever precedes a `c` is forgotten by `AfterLast`. */
  lemma {:induction false} AfterLastSkipsPrefix(x: string, c: char, b: string)
    ensures AfterLast(x + [c] + b, c) == AfterLast(b, c)
    decreases |b|
  {
    var s := x + [c] + b;
    if |b| == 0 {
      assert s[|s| - 1] == c;
    } else if b[|b| - 1] == c {
      assert s[|s| - 1] == c;
    } else {
      var d := b[|b| - 1];
      var b' := b[..|b| - 1];
      assert s[|s| - 1] == d;
      assert s[..|s| - 1] == x + [c] + b';
      assert AfterLast(s, c) == AfterLast(x + [c] + b', c) + [d];
      AfterLastSkipsPrefix(x, c, b');
      assert AfterLast(b, c) == AfterLast(b', c) + [d];
    }
  }

  /** The text after the first occurrence of `c`. */
  function AfterFirst(s: string, c: char): (r: string)
    requires c in s
    ensures |r| < |s|
  {
    s[IndexOf(s, c) + 1..]
  }

  /** The text before the first occurrence of `c`. */
  function BeforeFirst(s: string, c: char): (r: string)
    requires c in s
    ensures c !in r
  {
    IndexOfIsFirst(s, c);
    s[..IndexOf(s, c)]
  }

  /** A text is what comes before its first `c`, that `c`, and what comes after it. */
  lemma SplitAtFirst(s: string, c: char)
    requires c in s
    ensures s == BeforeFirst(s, c) + [c] + AfterFirst(s, c)
  {
    SplitAround(s, IndexOf(s, c));
  }

  /** The first occurrence is the one with nothing like it before. */
  lemma FirstIndex(s: string, c: char, i: nat)
    requires i < |s| && s[i] == c && c !in s[..i]
    ensures IndexOf(s, c) == i
  {
    var j := IndexOf(s, c);
    IndexOfIsFirst(s, c);
  }

  lemma SplitAround(s: string, i: nat)
    requires i < |s|
    ensures s == s[..i] + [s[i]] + s[i + 1..]
  {
  }

  /** `AfterLast` of a text is `AfterLast` of what follows its first occurrence of `c`. */
  lemma AfterLastAtFirst(s: string, c: char)
    requires c in s
    ensures AfterLast(s, c) == AfterLast(AfterFirst(s, c), c)
  {
    var pos := IndexOf(s, c);
    assert s == s[..pos] + [c] + s[pos + 1..];
    AfterLastSkipsPrefix(s[..pos], c, s[pos + 1..]);
  }

  predicate IsSep(c: char) { c == ':' || c == '-' }

  predicate NoSep(s: string)
  {
    forall j :: 0 <= j < |s| ==> !IsSep(s[j])
  }

  /** Python `re.split(':|-', s)`: the fields between separators, empty ones included. */
  function SplitFields(s: string): (r: seq<string>)
    ensures |r| >= 1
    ensures forall i :: 0 <= i < |r| ==> NoSep(r[i])
    decreases |s|
  {
    if |s| == 0 then [""]
    else
      var rest := SplitFields(s[1..]);
      if IsSep(s[0]) then
        var r := [""] + rest;
        assert forall i :: 0 < i < |r| ==> r[i] == rest[i - 1];
        r
      else
        var f := [s[0]] + rest[0];
        assert NoSep(f) by {
          forall j | 0 < j < |f| ensures !IsSep(f[j]) { assert f[j] == rest[0][j - 1]; }
        }
        var r := [f] + rest[1..];
        assert forall i :: 0 < i < |r| ==> r[i] == rest[i];
        r
  }

  /** One field more than there are separators. */
  lemma {:induction false} SplitFieldsCount(s: string)
    ensures |SplitFields(s)| == Count(s, ':') + Count(s, '-') + 1
    decreases |s|
  {
    if |s| > 0 {
      SplitFieldsCount(s[1..]);
    }
  }

  /** Text without a separator is a single field. */
  lemma {:induction false} SplitNoSep(a: string)
    requires NoSep(a)
    ensures SplitFields(a) == [a]
    decreases |a|
  {
    if |a| > 0 {
      assert NoSep(a[1..]) by {
        forall j | 0 <= j < |a[1..]| ensures !IsSep(a[1..][j]) { assert a[1..][j] == a[j + 1]; }
      }
      SplitNoSep(a[1..]);
      assert [a[0]] + a[1..] == a;
    }
  }

  /** A separator ends the field before it. */
  lemma {:induction false} SplitAtSep(a: string, c: char, b: string)
    requires NoSep(a) && IsSep(c)
    ensures SplitFields(a + [c] + b) == [a] + SplitFields(b)
    decreases |a|
  {
    var s := a + [c] + b;
    if |a| == 0 {
      assert s[1..] == b;
    } else {
      assert s[1..] == a[1..] + [c] + b;
      assert NoSep(a[1..]) by {
        forall j | 0 <= j < |a[1..]| ensures !IsSep(a[1..][j]) { assert a[1..][j] == a[j + 1]; }
      }
      SplitAtSep(a[1..], c, b);
      assert [a[0]] + a[1..] == a;
    }
  }
}

=== FILE: wrappers.dfy ===
/** Failure-carrying wrappers used across the model: `Option` for lookups that may
    find nothing, `Result` for operations that can raise a Python exception. */
module Wrappers {

  datatype Option<+T> = None | Some(value: T)

  datatype Result<+R, +E> = Success(value: R) | Failure(error: E)
}
